=== FILE: README.md ===
# LinkedIn alumni scraper: text and record layer

A Dafny model of the deterministic part of the alumni scraper `test_scraper.py`:

- `sanitize_filename`: deletes the characters a file name may not carry.
- `clean_text`: normalises a free-text field. It splits the text into lines, strips each line, drops blank lines, exact repeats and "date duplicates", and joins what is left with newlines.
- `clean_company_name`: removes a trailing employment-type annotation such as " · Full-time".
- The record that `scrape_linkedin_profile` builds from the fields the profile page yields. The model covers:
  - the profile fields;
  - the cleaned company names;
  - the current location, which is the first non-empty experience location;
  - the constant flags;
  - one experience record per experience, with its duration string and cleaned description;
  - the caught error when an experience has no company name.
- `main`: the credential guard, and the loop that scrapes every URL and keeps the successful records in order.

The model is split into these modules:

| module | contents |
|---|---|
| `Wrappers` | `Option` |
| `Text` | Python's `str.isspace`, `strip`, `split`, `join`, substring `in` and truthiness |
| `Filename` | `sanitize_filename` |
| `CleanText` | `clean_text`: a recursive reference `Dedup` and the loop as written (`CleanTextLoop`), proved equal |
| `CompanyName` | `clean_company_name`, reduced to the last middle dot, and a reference matcher for the regular expression (`MatchesAt`), proved to agree |
| `Records` | the record built in `scrape_linkedin_profile` |
| `Batch` | the credential guard and accumulation loop of `main` |

Three behaviours of the code are easy to misread. The model follows the code in each:

- **Date-duplicate rule.** The comment at `test_scraper.py:39-40` describes lines with the same duration in two date formats. The test at `test_scraper.py:49-51` is looser: it asks whether the stripped text after the line's middle dot occurs as a substring of any kept line that has a middle dot. Lemma `CleanText.ShorterDurationDropped` shows the consequence: "1 yr" is dropped after a kept "… · 1 yr 11 mos". The rule is also triggered by any `-`, or the two letters `to`, anywhere in the line (`test_scraper.py:42`), not only by a date range.
- **Current location.** The test at `test_scraper.py:115` is truthiness, so an empty location string is skipped as well as a missing one.
- **Login.** `actions.login` runs inside every call of `scrape_linkedin_profile` (`test_scraper.py:93`), so each target logs in afresh. A failed login inside the `try` loses only that target. It is part of the failure modelled by the `fetched` parameter of `ScrapeProfile`. The `scrape` parameter of `Run` takes the position of the call as well as the URL, so two scrapes of the same URL are independent: one may fail and the other succeed, and two records may carry different timestamps (lemma `Batch.RetriedUrlKept`).

## Model

| member | source | states |
|---|---|---|
| Text.Join | test_scraper.py:58 | `'\n'.join`: the pieces with the separator between each two |
| Text.IsSubstring | test_scraper.py:50 | Python's `needle in hay` on strings: the needle occurs at some position of the haystack |
| CleanText.DateRuleApplies | test_scraper.py:42-45 | the lines the date rule looks at: a middle dot, a `-` or `to` somewhere, and exactly two parts when split on the dot |
| CleanText.Dedup | test_scraper.py:30-56 | reference for the loop: each stripped line is kept unless it is blank, already kept, or a date duplicate of the lines kept before it |
| CompanyName.MatchesAt | test_scraper.py:62 | the pattern `\s*·\s*(alternatives)` matches from a position to the very end of the name |
| CompanyName.RegexMatchesAt | test_scraper.py:62 | the pattern with Python's `$` matches from a position: to the end, or to just before a final line break |
| Records.Render | test_scraper.py:121 | how the f-string renders an optional string: a missing one as "None" |
| Records.Description | test_scraper.py:122 | the cleaned description when it is non-empty, None otherwise |
| Records.LocationStep | test_scraper.py:114-116 | one pass of the location loop: take the location while none is held and it is non-empty |
| Records.FoldLocation | test_scraper.py:113-116 | the location loop as written, over the experiences in order |
| Batch.HasCredentials | test_scraper.py:136 | both the email and the password are present and non-empty |
| Text.IsWhitespace | test_scraper.py:31 | the code points of Python's `str.isspace()`, which `strip()` removes and the `\s` of the pattern at test_scraper.py:62 matches |
| Text.Truthy | test_scraper.py:20 | Python truthiness of an optional string, as in the `not` tests at :20, :115, :121, :122 and :136: present and non-empty |
| Filename.Forbidden | test_scraper.py:17 | the nine characters of the character class: `<`, `>`, `:`, `"`, `/`, backslash, vertical bar, `?` and `*` |
| CleanText.StripAll | test_scraper.py:30-31 | every line stripped, blank lines kept as empty strings, in order |
| CleanText.CleanLines | test_scraper.py:24-56 | the lines `clean_text` keeps: the text split on line breaks, each line stripped, then deduplicated |
| CleanText.DurationPart | test_scraper.py:44-47 | the stripped text after the only middle dot of a line |
| CleanText.DateDuplicate | test_scraper.py:41-52 | the date rule applies to the line and some kept line with a middle dot contains its duration part |
| CleanText.SomeLineContains | test_scraper.py:49-51 | some kept line has a middle dot and contains the given text |
| CleanText.Dropped | test_scraper.py:32-54 | a stripped line is skipped when it is blank, already kept, or a date duplicate |
| CompanyName.EmploymentTypes | test_scraper.py:62 | the six alternatives of the pattern, case-sensitive |
| CompanyName.IsTagTail | test_scraper.py:62 | what may follow the middle dot up to the end of a match: `\s*` then one alternative |
| CompanyName.Anchored | test_scraper.py:62 | the part of a name before the position where `$` matches a match's end: all of it, or all but a final line break |
| Filename.SanitizeFilename | test_scraper.py:15-17 | the result has none of the nine characters the pattern deletes; every other character keeps its count; the order of what is left is kept (a subsequence of the input) |
| Filename.SanitizeFixpoint | test_scraper.py:15-17 | a name is returned unchanged exactly when it has none of the nine forbidden characters |
| Filename.SanitizeIdempotent | test_scraper.py:15-17 | sanitising a sanitised name changes nothing |
| Text.Strip | test_scraper.py:31 | `strip()` returns the one infix with only whitespace around it and none at its ends; the result is empty exactly when the line is all whitespace; a stripped line is unchanged |
| Text.Split | test_scraper.py:24 | `split('\n')` gives at least one piece, no piece contains the separator, and joining the pieces with the separator gives the text back |
| Text.SplitJoin | test_scraper.py:24 | splitting a join of separator-free pieces gives the pieces back |
| CleanText.CleanText | test_scraper.py:19-21 | None or empty input gives None; otherwise the result is the empty string exactly when the input is all whitespace |
| CleanText.CleanTextLoop | test_scraper.py:19-58 | the loop as written, with its `seen` set, the list of unique lines and the scan of `seen` that stops at the first hit, returns exactly the reference `CleanText` |
| CleanText.CleanLine | test_scraper.py:30-56 | one pass of the loop extends the kept lines as the reference does for one more input line, and `seen` stays the set of kept lines |
| CleanText.KeepLine | test_scraper.py:31-54 | a stripped line is appended exactly when it is non-blank, not in `seen`, and not a date duplicate of a seen line |
| CleanText.LoopStep | test_scraper.py:30-56 | keeping or skipping one line as the loop decides is the reference's step on the next prefix of the input |
| CleanText.DateDuplicateScan | test_scraper.py:41-52 | the date test reports a duplicate exactly when the line has one middle dot and a `-` or `to`, and some seen line with a middle dot contains the stripped text after this line's dot |
| CleanText.SomeLineContainsSet | test_scraper.py:49-52 | scanning the set `seen` gives the same answer as scanning the kept lines in order |
| CleanText.DedupKept | test_scraper.py:30-56 | every kept line is an input line that is non-blank, not an earlier kept line, and not a date duplicate of the lines kept before it |
| CleanText.DedupDistinct | test_scraper.py:36-37 | the kept lines are pairwise distinct |
| CleanText.DedupCovers | test_scraper.py:30-56 | every input line is blank, kept, or a date duplicate of a kept line: no other line is lost |
| CleanText.OtherLinesKept | test_scraper.py:39-56 | a non-blank line the date rule does not apply to always appears in the output |
| CleanText.DedupOrder | test_scraper.py:55-56 | kept lines appear in the order of their first occurrence in the input |
| CleanText.DedupFixpoint | test_scraper.py:30-56 | lines that each survive against the lines before them all pass through unchanged |
| CleanText.CleanLinesShape | test_scraper.py:30-32 | every output line is non-empty, stripped, has no newline, and is the stripped form of some input line |
| CleanText.CleanTextEmpty | test_scraper.py:58 | the joined output is empty exactly when the input is all whitespace |
| CleanText.BlankTextKeepsNothing | test_scraper.py:31-33 | a whitespace-only text keeps no line |
| CleanText.DedupAllBlank | test_scraper.py:32-33 | blank lines are all skipped |
| CleanText.VisibleTextKeepsSomething | test_scraper.py:30-58 | a text with a visible character yields a non-empty result |
| CleanText.CleanTextIdempotent | test_scraper.py:19-58 | cleaning a non-empty cleaned text gives it back |
| CleanText.TwoLines | test_scraper.py:30-58 | two clean lines give the first alone when the second is dropped against it, and both joined by a newline otherwise |
| CleanText.DateRuleMatches | test_scraper.py:42-51 | a line `<before> · <duration>` that mentions `-` or `to` is a date duplicate when a kept line with a middle dot contains the duration |
| CleanText.SameDurationCollapses | test_scraper.py:39-52 | "R1 · D" followed by "R2 · D", with R2 mentioning `-` or `to`, cleans to "R1 · D" alone |
| CleanText.ShorterDurationDropped | test_scraper.py:47-51 | a later period line whose duration is any substring of a kept line's duration is dropped |
| CompanyName.EmploymentTypesShape | test_scraper.py:62 | each of the six alternatives is non-empty, stripped, and has no middle dot or line break |
| CompanyName.TagTailShape | test_scraper.py:62 | what may follow the dot in a match has no middle dot and ends with the last letter of an alternative |
| CompanyName.TagDot | test_scraper.py:62 | the only middle dot that can be followed by `\s*` and an alternative up to the end is the last one, and it is found when it is |
| CompanyName.MatchFindsTagDot | test_scraper.py:62 | every position where the pattern matches lies in the whitespace run before that dot, or is the dot |
| CompanyName.MatchStart | test_scraper.py:62 | the computed start is where the pattern matches with no earlier match; None exactly when the pattern matches nowhere |
| CompanyName.StripEmploymentType | test_scraper.py:62 | the result is a prefix of the name; the name is unchanged when nothing matches; otherwise the result is cut at the leftmost match |
| CompanyName.RegexMatchesAnchored | test_scraper.py:62 | when the name ends with a line break, a match can only end just before it: the matches in the name are exactly the end-anchored matches in the name without that line break |
| CompanyName.CleanCompanyName | test_scraper.py:60-62 | with no match the name is returned unchanged; otherwise everything from the leftmost match start to the end is removed, except a final line break |
| CompanyName.StripAtLeftmost | test_scraper.py:62 | the cut is at the leftmost match |
| CompanyName.StripsTag | test_scraper.py:60-62 | "<name> · <type>" cleans to "<name>" for a stripped name, even one with middle dots of its own |
| CompanyName.StripsOneTagOnly | test_scraper.py:60-62 | only one annotation is removed per call, so a name with two gives one back and cleaning is not idempotent |
| CompanyName.KeepsUnknownTag | test_scraper.py:60-62 | a name without a final line break, whose text after its last middle dot is not whitespace followed by an alternative (for instance " Volunteer" or " full-time"), is unchanged |
| Records.Duration | test_scraper.py:121 | "<from> - Present" exactly when the end date is missing or empty; otherwise "<from> to <to>"; a missing from date renders as "None" |
| Records.DescriptionIsCleanText | test_scraper.py:122 | the description guard makes no difference: it equals `clean_text` of the description |
| Records.ExperienceOf | test_scraper.py:117-123 | an experience record exists exactly when the company name is present, and its company is the cleaned name |
| Records.CompanyOf | test_scraper.py:105 | one entry of `companies` fails exactly when the name is missing, and is the cleaned name otherwise |
| Records.Collect | test_scraper.py:105 | a comprehension whose element may raise succeeds exactly when every element does, and then lists the values in order |
| Records.Companies | test_scraper.py:105 | `companies` exists exactly when every experience has a company name, with one cleaned name per experience in order |
| Records.Experiences | test_scraper.py:113-124 | `experiences` exists exactly when every experience has a company name, with one record per experience in order |
| Records.FirstLocation | test_scraper.py:113-116 | reference: None exactly when no experience has a non-empty location, else the location of the first that does |
| Records.FoldLocationFirst | test_scraper.py:113-116 | the location loop keeps a location once it holds one, and otherwise ends with the first non-empty location |
| Records.CurrentLocationIsFirst | test_scraper.py:106-116 | starting from None, the loop yields the first non-empty location |
| Records.BuildRecord | test_scraper.py:99-124 | the record exists exactly when every experience has a company name. It copies name, URL, picture and role; cleans the bio; sets the flags true, true, false; uses the supplied timestamp; locates at the first non-empty location; has as many companies and experience records as experiences, with `companies[k] == experiences[k].company` == the cleaned k-th name |
| Records.BuildRecordExperiences | test_scraper.py:117-124 | each experience record carries its own position, location, duration and cleaned description |
| Records.ScrapeProfile | test_scraper.py:92-129 | the scrape gives a record exactly when the page was fetched and every experience has a company name |
| Records.FirstLocationWins | test_scraper.py:113-116 | locations None, "Paris", "Berlin" give "Paris" |
| Batch.Successes | test_scraper.py:145-149 | the kept records are exactly the values of the successful scrapes; all are kept exactly when all succeeded |
| Batch.SuccessesAppend | test_scraper.py:148-149 | one more result appends its record when the scrape succeeded, and nothing otherwise |
| Batch.Run | test_scraper.py:136-150 | the run stops with the credentials message exactly when the email or password is missing or empty; otherwise every URL is scraped in order and the successful records are kept in that order |
| Batch.ScrapeOneMore | test_scraper.py:146-149 | one more URL adds its record to the result when its scrape succeeded |
| Batch.SavedRecords | test_scraper.py:145-149 | a record is saved exactly when the scrape of some URL produced it |
| Batch.RetriedUrlKept | test_scraper.py:146-149 | a URL listed twice is scraped twice: a failed first attempt and a successful second keep the second's record |

## Left out

- Pacing, `random_human_delay` and `random_human_scroll_and_mouse` (`test_scraper.py:64-85`, and the calls at 94, 96, 97 and 150): sleeps, randomness and browser scrolling. They are left out because they produce no data. A scroll that raises (`test_scraper.py:70-73` lie outside the inner `try`) loses that target through `test_scraper.py:127-129`. That loss is part of the missing profile given by `fetched`.
- The browser session, `actions.login`, navigation and the `Person` page parser (`test_scraper.py:88-98`) are outside the model. Their outcome is the `fetched` parameter of `ScrapeProfile`, an optional raw profile whose fields may each be missing. An exception raised inside the `try` (`test_scraper.py:93-98`) appears as a missing profile. An exception raised while creating the browser (`test_scraper.py:88-91`) is outside the `try`; see the `Batch.Run` line below.
- The `hasattr(person, 'picture')` test at `test_scraper.py:102` is folded into the optional `picture` field.
- `getattr(experience, 'location', None)` at `test_scraper.py:114` is folded into the optional `location` field.
- `datetime.now().isoformat()` (`test_scraper.py:110`) is a clock. Its value is the `createdAt` parameter.
- The `print` calls (`test_scraper.py:125, 128, 137, 153`) are not modelled, because they are console output only. `Run` returns `MissingCredentials` where the message is printed.
- Writing `alumni_mega.json` (`test_scraper.py:151-153`): file I/O. `Run` returns the list that is written.
- `driver.quit()` in the `finally` block (`test_scraper.py:130-131`) is resource release and is not modelled. If it raises, see the `Batch.Run` line below.
- Reading the environment and the hard-coded URL list (`test_scraper.py:134-135, 139-144`) are replaced by the parameters of `Run`.
- Exceptions other than the missing company name are not modelled as separate cases. An error raised by `clean_text`, or by rendering a field, cannot happen on the modelled inputs.
- The iteration order of the set `seen` in the date scan: Python iterates the set `seen` in hash order. The model takes its elements in an arbitrary order and proves that the answer does not depend on it.
- Batch.Run: an exception that escapes `scrape_linkedin_profile` aborts the whole run: no later URL is tried and `alumni_mega.json` is not written. Such an exception can come from creating the browser (`test_scraper.py:88-91`, before the `try`) or from `driver.quit()` in the `finally` (`test_scraper.py:131`). The model has no outcome for this. Its `scrape` parameter only returns a record or None, so `Run` describes runs in which no such exception occurs.

=== FILE: batch.dfy ===
/**
  `main`: the credential guard and the loop that scrapes every target URL in
  turn and keeps the records of the scrapes that succeeded, in order.
 */
module Batch {
  import opened Wrappers
  import opened Text
  import opened Records

  /** What a run ends with: the message about missing credentials, or the list
      of records written out. */
  datatype RunOutcome = MissingCredentials | Saved(records: seq<ProfileRecord>)

  /** Both credentials are present and non-empty. */
  predicate HasCredentials(email: Option<string>, password: Option<string>) {
    Truthy(email) && Truthy(password)
  }

  /** The values of the successful results, in order. */
  function Successes(results: seq<Option<ProfileRecord>>): (r: seq<ProfileRecord>)
    ensures |r| <= |results|
    ensures forall x :: x in r <==> Some(x) in results
    ensures |r| == |results| <==> forall k :: 0 <= k < |results| ==> results[k].Some?
  {
    if |results| == 0 then []
    else
      var rest := Successes(results[1..]);
      assert forall x :: Some(x) in results <==> Some(x) == results[0] || Some(x) in results[1..];
      assert forall k :: 1 <= k < |results| ==> results[k] == results[1..][k - 1];
      match results[0]
      case Some(x) => [x] + rest
      case None => rest
  }

  /** One more result appends its value, if it has one. */
  lemma {:induction false} SuccessesAppend(results: seq<Option<ProfileRecord>>, last: Option<ProfileRecord>)
    ensures last.Some? ==> Successes(results + [last]) == Successes(results) + [last.value]
    ensures last.None? ==> Successes(results + [last]) == Successes(results)
  {
    if |results| == 0 {
      assert results + [last] == [last];
    } else {
      assert (results + [last])[1..] == results[1..] + [last];
      SuccessesAppend(results[1..], last);
    }
  }

  /** The result of scraping every URL of `urls`, in order, with the same
      credentials. Each call is a fresh scrape with its own login and clock, so
      its outcome is given by the position of the call as well as its URL: the
      same URL twice may fail once and succeed once, or give two records with
      different timestamps. */
  function ScrapeAll(urls: seq<string>, email: string, password: string,
                     scrape: (nat, string, string, string) -> Option<ProfileRecord>): (r: seq<Option<ProfileRecord>>)
    ensures |r| == |urls|
    ensures forall k :: 0 <= k < |urls| ==> r[k] == scrape(k, urls[k], email, password)
  {
    seq(|urls|, k requires 0 <= k < |urls| => scrape(k, urls[k], email, password))
  }

  /** The run: without both credentials nothing is scraped; otherwise every URL
      is attempted in order, a failed scrape is skipped, and the records of the
      others are kept in the order of their URLs. */
  method Run(email: Option<string>, password: Option<string>, urls: seq<string>,
             scrape: (nat, string, string, string) -> Option<ProfileRecord>) returns (outcome: RunOutcome)
    ensures outcome.MissingCredentials? <==> !HasCredentials(email, password)
    ensures outcome.Saved? ==>
      outcome.records == Successes(ScrapeAll(urls, email.value, password.value, scrape))
  {
    if !Truthy(email) || !Truthy(password) {
      return MissingCredentials;
    }
    var megaData: seq<ProfileRecord> := [];
    var i := 0;
    while i < |urls|
      invariant i <= |urls|
      invariant megaData == Successes(ScrapeAll(urls[..i], email.value, password.value, scrape))
    {
      var data := scrape(i, urls[i], email.value, password.value);
      ScrapeOneMore(urls, i, email.value, password.value, scrape);
      if data.Some? {
        megaData := megaData + [data.value];
      }
      i := i + 1;
    }
    assert urls[..|urls|] == urls;
    return Saved(megaData);
  }

  /** One more URL adds its record, if its scrape succeeded. */
  lemma ScrapeOneMore(urls: seq<string>, i: nat, email: string, password: string,
                      scrape: (nat, string, string, string) -> Option<ProfileRecord>)
    requires i < |urls|
    ensures var data := scrape(i, urls[i], email, password);
            Successes(ScrapeAll(urls[..i + 1], email, password, scrape)) ==
              Successes(ScrapeAll(urls[..i], email, password, scrape)) +
                (if data.Some? then [data.value] else [])
  {
    var data := scrape(i, urls[i], email, password);
    var before := ScrapeAll(urls[..i], email, password, scrape);
    assert ScrapeAll(urls[..i + 1], email, password, scrape) == before + [data];
    SuccessesAppend(before, data);
  }

  /** A record is kept exactly when the scrape of some URL produced it. */
  lemma {:induction false} SavedRecords(urls: seq<string>, email: string, password: string,
                     scrape: (nat, string, string, string) -> Option<ProfileRecord>, x: ProfileRecord)
    ensures x in Successes(ScrapeAll(urls, email, password, scrape)) <==>
      exists k :: 0 <= k < |urls| && scrape(k, urls[k], email, password) == Some(x)
  {
    var results := ScrapeAll(urls, email, password, scrape);
    if Some(x) in results {
      var k :| 0 <= k < |results| && results[k] == Some(x);
      assert scrape(k, urls[k], email, password) == Some(x);
    }
  }

  /** Two scrapes of the same URL are separate attempts: a first that fails and
      a second that succeeds keep the second's record. */
  lemma {:induction false} RetriedUrlKept(url: string, email: string, password: string,
                        scrape: (nat, string, string, string) -> Option<ProfileRecord>, x: ProfileRecord)
    requires scrape(0, url, email, password).None? && scrape(1, url, email, password) == Some(x)
    ensures Successes(ScrapeAll([url, url], email, password, scrape)) == [x]
  {
    var results := ScrapeAll([url, url], email, password, scrape);
    assert results == [None, Some(x)];
    assert results[1..] == [Some(x)];
    assert results[1..][1..] == [];
  }
}

=== FILE: clean_text.dfy ===
/**
  `clean_text`: split a free-text field into lines, strip them, drop blank
  lines, exact repeats and "date duplicates", and join what is left.

  The code keeps a set `seen` and a list `unique_lines` and always adds a line
  to both or to neither, so `seen` is the set of lines kept so far; the model
  uses the kept sequence for both.
 */
module CleanText {
  import opened Wrappers
  import opened Text

  /** Every line stripped; blank lines are still present, as empty strings. */
  function StripAll(lines: seq<string>): (r: seq<string>)
    ensures |r| == |lines|
    ensures forall k :: 0 <= k < |r| ==> r[k] == Strip(lines[k])
  {
    seq(|lines|, k requires 0 <= k < |lines| => Strip(lines[k]))
  }

  /** The stripped text after the only middle dot of a line. */
  function DurationPart(line: string): string
    requires |Split(line, MiddleDot)| == 2
  {
    Strip(Split(line, MiddleDot)[1])
  }

  /** The date-duplicate rule: the line has a middle dot and contains `-` or
      the substring `to`, splits into exactly two parts on the middle dot, and
      some kept line that has a middle dot contains the part after this line's
      dot, stripped, as a substring. */
  predicate DateDuplicate(line: string, kept: seq<string>) {
    DateRuleApplies(line) && SomeLineContains(kept, DurationPart(line))
  }

  /** The lines the date rule looks at: one middle dot, and `-` or `to` somewhere. */
  predicate DateRuleApplies(line: string) {
    && MiddleDot in line
    && ('-' in line || IsSubstring("to", line))
    && |Split(line, MiddleDot)| == 2
  }

  /** Some line of `kept` has a middle dot and contains `part`. */
  predicate SomeLineContains(kept: seq<string>, part: string) {
    |kept| > 0 && ((MiddleDot in kept[0] && IsSubstring(part, kept[0])) || SomeLineContains(kept[1..], part))
  }

  lemma {:induction false} SomeLineContainsAppend(kept: seq<string>, more: seq<string>, part: string)
    requires SomeLineContains(kept, part)
    ensures SomeLineContains(kept + more, part)
  {
    if !(MiddleDot in kept[0] && IsSubstring(part, kept[0])) {
      assert (kept + more)[1..] == kept[1..] + more;
      SomeLineContainsAppend(kept[1..], more, part);
    }
  }

  /** A stripped line is dropped when it is blank, already kept, or a date duplicate. */
  predicate Dropped(line: string, kept: seq<string>) {
    line == "" || line in kept || DateDuplicate(line, kept)
  }

  /** A line dropped against some kept lines stays dropped once more lines are kept. */
  lemma DroppedMonotonic(line: string, kept: seq<string>, more: seq<string>)
    requires Dropped(line, kept)
    ensures Dropped(line, kept + more)
  {
    if DateDuplicate(line, kept) && line != "" && line !in kept + more {
      SomeLineContainsAppend(kept, more, DurationPart(line));
    }
  }

  /** Each line of `r` is a line of `lines` that is not dropped against the lines before it in `r`. */
  predicate SurvivesEarlier(lines: seq<string>, r: seq<string>) {
    forall k :: 0 <= k < |r| ==> r[k] in lines && !Dropped(r[k], r[..k])
  }

  /** The lines of `r` are lines of `lines`, ordered by where they first occur there. */
  predicate InFirstOccurrenceOrder(lines: seq<string>, r: seq<string>) {
    && (forall k :: 0 <= k < |r| ==> r[k] in lines)
    && (forall i, j :: 0 <= i < j < |r| ==> FirstIndex(lines, r[i]) < FirstIndex(lines, r[j]))
  }

  /** The lines kept from already-stripped `lines`: each line is kept unless it is
      dropped against the lines kept before it. */
  function Dedup(lines: seq<string>): seq<string> {
    if |lines| == 0 then []
    else
      var prev := Dedup(lines[..|lines| - 1]);
      var line := lines[|lines| - 1];
      if Dropped(line, prev) then prev else prev + [line]
  }

  /** Every kept line is an input line that was not dropped against the lines kept
      before it: so it is non-empty, new, and not a date duplicate. */
  lemma {:induction false} DedupKept(lines: seq<string>)
    ensures SurvivesEarlier(lines, Dedup(lines))
  {
    if |lines| > 0 {
      var n := |lines| - 1;
      var prev := Dedup(lines[..n]);
      var r := Dedup(lines);
      DedupKept(lines[..n]);
      forall k | 0 <= k < |prev| ensures prev[k] in lines {
        assert prev[k] in lines[..n];
      }
      if r != prev {
        assert r == prev + [lines[n]];
        assert r[..|prev|] == prev;
        forall k | 0 <= k < |prev| ensures r[..k] == prev[..k] { }
      }
    }
  }

  /** Kept lines are pairwise distinct. */
  lemma {:induction false} DedupDistinct(lines: seq<string>)
    ensures forall i, j :: 0 <= i < j < |Dedup(lines)| ==> Dedup(lines)[i] != Dedup(lines)[j]
  {
    var r := Dedup(lines);
    DedupKept(lines);
    forall i, j | 0 <= i < j < |r| ensures r[i] != r[j] {
      assert r[i] == r[..j][i];
    }
  }

  /** Every input line is accounted for by the result: it is blank, or kept, or a
      date duplicate of a kept line. In particular a non-blank line that the date
      rule does not apply to is kept. */
  lemma {:induction false} DedupCovers(lines: seq<string>)
    ensures forall l :: l in lines ==> Dropped(l, Dedup(lines))
  {
    if |lines| > 0 {
      var n := |lines| - 1;
      var prev := Dedup(lines[..n]);
      var r := Dedup(lines);
      DedupCovers(lines[..n]);
      forall l | l in lines ensures Dropped(l, r) {
        if l != lines[n] {
          assert l in lines[..n];
          if r != prev { DroppedMonotonic(l, prev, [lines[n]]); }
        }
      }
    }
  }

  /** A non-blank line the date rule does not look at (no middle dot, several, or
      neither `-` nor `to`) is dropped only as an exact repeat: it is kept. */
  lemma {:induction false} OtherLinesKept(lines: seq<string>, l: string)
    requires l in lines && l != "" && !DateRuleApplies(l)
    ensures l in Dedup(lines)
  {
    DedupCovers(lines);
  }

  /** Kept lines come in the order of their first occurrence in the input. */
  lemma {:induction false} DedupOrder(lines: seq<string>)
    ensures InFirstOccurrenceOrder(lines, Dedup(lines))
  {
    if |lines| > 0 {
      var n := |lines| - 1;
      var line := lines[n];
      var prev := Dedup(lines[..n]);
      var r := Dedup(lines);
      DedupOrder(lines[..n]);
      forall k | 0 <= k < |prev|
        ensures prev[k] in lines[..n] && prev[k] in lines
        ensures FirstIndex(lines, prev[k]) == FirstIndex(lines[..n], prev[k])
      {
        assert prev[k] in lines[..n];
        FirstIndexPrefix(lines, n, prev[k]);
      }
      if r != prev {
        // the new line was not met before: it would have been dropped against `prev`
        DedupCovers(lines[..n]);
        assert line !in lines[..n];
        assert FirstIndex(lines, line) == n;
      }
    }
  }

  /** Lines each of which survives against the ones before it pass through unchanged. */
  lemma {:induction false} DedupFixpoint(lines: seq<string>)
    requires forall k :: 0 <= k < |lines| ==> !Dropped(lines[k], lines[..k])
    ensures Dedup(lines) == lines
  {
    if |lines| > 0 {
      var n := |lines| - 1;
      var init := lines[..n];
      forall k | 0 <= k < |init| ensures !Dropped(init[k], init[..k]) {
        assert init[..k] == lines[..k];
      }
      DedupFixpoint(init);
    }
  }

  /** The lines `clean_text` keeps from a text. */
  function CleanLines(text: string): seq<string> {
    Dedup(StripAll(Split(text, '\n')))
  }

  /** `clean_text`. None or empty input gives None; any other input gives the kept
      lines joined by newlines, which is empty exactly when the input is all
      whitespace (newlines count as whitespace). */
  function CleanText(text: Option<string>): (r: Option<string>)
    ensures r.None? <==> !Truthy(text)
    ensures r == Some("") <==> Truthy(text) && AllWhitespace(text.value)
  {
    if !Truthy(text) then None
    else
      CleanTextEmpty(text.value);
      Some(Join(CleanLines(text.value), '\n'))
  }

  /** A line of a cleaned text: non-empty, stripped, without a newline. */
  predicate IsCleanLine(l: string) {
    l != "" && IsStripped(l) && '\n' !in l
  }

  /** `l` is one of the lines of `text`, stripped. */
  predicate IsStrippedLineOf(l: string, text: string) {
    exists j :: 0 <= j < |Split(text, '\n')| && l == Strip(Split(text, '\n')[j])
  }

  /** Every kept line is a stripped, non-empty line of the input without a newline. */
  lemma CleanLinesShape(text: string)
    ensures forall k :: 0 <= k < |CleanLines(text)| ==>
      IsCleanLine(CleanLines(text)[k]) && IsStrippedLineOf(CleanLines(text)[k], text)
  {
    var pieces := Split(text, '\n');
    var sl := StripAll(pieces);
    var out := Dedup(sl);
    DedupKept(sl);
    forall k | 0 <= k < |out|
      ensures IsCleanLine(out[k]) && IsStrippedLineOf(out[k], text)
    {
      assert out[k] in sl && !Dropped(out[k], out[..k]);
      var j :| 0 <= j < |sl| && sl[j] == out[k];
      assert out[k] == Strip(pieces[j]);
      if '\n' in out[k] {
        StripChars(pieces[j], '\n');
      }
    }
  }

  /** The kept lines join to the empty string exactly when the text is all whitespace. */
  lemma CleanTextEmpty(text: string)
    ensures Join(CleanLines(text), '\n') == "" <==> AllWhitespace(text)
  {
    if AllWhitespace(text) {
      BlankTextKeepsNothing(text);
    } else {
      var i :| 0 <= i < |text| && !IsWhitespace(text[i]);
      VisibleTextKeepsSomething(text, i);
    }
  }

  lemma BlankTextKeepsNothing(text: string)
    requires AllWhitespace(text)
    ensures CleanLines(text) == []
  {
    var pieces := Split(text, '\n');
    var sl := StripAll(pieces);
    forall k | 0 <= k < |sl| ensures sl[k] == "" {
      forall i | 0 <= i < |pieces[k]| ensures IsWhitespace(pieces[k][i]) {
        JoinContainsPiece(pieces, '\n', k, pieces[k][i]);
      }
    }
    DedupAllBlank(sl);
  }

  /** Blank lines are all dropped. */
  lemma {:induction false} DedupAllBlank(lines: seq<string>)
    requires forall k :: 0 <= k < |lines| ==> lines[k] == ""
    ensures Dedup(lines) == []
  {
    if |lines| > 0 {
      DedupAllBlank(lines[..|lines| - 1]);
    }
  }

  lemma VisibleTextKeepsSomething(text: string, i: nat)
    requires i < |text| && !IsWhitespace(text[i])
    ensures Join(CleanLines(text), '\n') != ""
  {
    var pieces := Split(text, '\n');
    var sl := StripAll(pieces);
    var out := Dedup(sl);
    JoinChars(pieces, '\n', text[i]);
    var k :| 0 <= k < |pieces| && text[i] in pieces[k];
    var m :| 0 <= m < |pieces[k]| && pieces[k][m] == text[i];
    assert !AllWhitespace(pieces[k]);
    assert sl[k] != "";
    assert sl[k] in sl;
    DedupCovers(sl);
    assert |out| > 0 by {
      assert Dropped(sl[k], out);
      if sl[k] !in out { assert SomeLineContains(out, DurationPart(sl[k])); }
    }
    DedupKept(sl);
    assert !Dropped(out[0], out[..0]);
    JoinNonEmpty(out, '\n');
  }

  /** Cleaning a non-empty cleaned text gives it back. */
  lemma {:induction false} CleanTextIdempotent(text: Option<string>)
    requires CleanText(text).Some? && CleanText(text).value != ""
    ensures CleanText(CleanText(text)) == CleanText(text)
  {
    var out := CleanLines(text.value);
    CleanLinesShape(text.value);
    assert |out| >= 1;
    SplitJoin(out, '\n');
    assert StripAll(out) == out;
    DedupKept(StripAll(Split(text.value, '\n')));
    DedupFixpoint(out);
  }

  /** The loop of `clean_text` as written: a set `seen`, a list of unique lines, and
      for the date rule a scan of `seen` that stops at the first match. It computes
      `CleanText`. */
  method CleanTextLoop(text: Option<string>) returns (r: Option<string>)
    ensures r == CleanText(text)
  {
    if !Truthy(text) {
      return None;
    }
    var lines := Split(text.value, '\n');
    ghost var stripped := StripAll(lines);
    var seen: set<string> := {};
    var uniqueLines: seq<string> := [];
    var i := 0;
    assert Dedup(stripped[..0]) == [];
    while i < |lines|
      invariant i <= |lines|
      invariant uniqueLines == Dedup(stripped[..i])
      invariant forall l :: l in seen <==> l in uniqueLines
    {
      seen, uniqueLines := CleanLine(lines, stripped, i, seen, uniqueLines);
      i := i + 1;
    }
    assert stripped[..|lines|] == stripped;
    r := Some(Join(uniqueLines, '\n'));
  }

  /** One pass of the loop body: strip the line, test it, and record it in
      `seen` and the unique lines when it is kept. */
  method CleanLine(lines: seq<string>, ghost stripped: seq<string>, i: nat,
                   seen: set<string>, uniqueLines: seq<string>)
    returns (seen': set<string>, uniqueLines': seq<string>)
    requires i < |lines| && stripped == StripAll(lines)
    requires uniqueLines == Dedup(stripped[..i])
    requires forall l :: l in seen <==> l in uniqueLines
    ensures uniqueLines' == Dedup(stripped[..i + 1])
    ensures forall l :: l in seen' <==> l in uniqueLines'
  {
    var line := Strip(lines[i]);
    var keep := KeepLine(line, seen);
    LoopStep(stripped, i, uniqueLines, seen, line, keep);
    if keep {
      seen' := seen + {line};
      uniqueLines' := uniqueLines + [line];
    } else {
      seen', uniqueLines' := seen, uniqueLines;
    }
  }

  /** The tests of the loop body on a stripped line: it is kept when it is
      non-blank, not seen before, and not a date duplicate of a seen line. */
  method KeepLine(line: string, seen: set<string>) returns (keep: bool)
    ensures keep <==> (line != "" && line !in seen && !(DateRuleApplies(line) &&
               exists s :: s in seen && MiddleDot in s && IsSubstring(DurationPart(line), s)))
  {
    if line == "" || line in seen {
      return false;
    }
    var isDuplicateDate := DateDuplicateScan(line, seen);
    return !isDuplicateDate;
  }

  /** One pass of the loop body: it keeps the line exactly when `Dedup` does. */
  lemma LoopStep(lines: seq<string>, i: nat, kept: seq<string>, seen: set<string>, line: string, keep: bool)
    requires i < |lines| && line == lines[i] && kept == Dedup(lines[..i])
    requires forall l :: l in seen <==> l in kept
    requires keep <==> (line != "" && line !in seen && !(DateRuleApplies(line) &&
               exists s :: s in seen && MiddleDot in s && IsSubstring(DurationPart(line), s)))
    ensures Dedup(lines[..i + 1]) == if keep then kept + [line] else kept
  {
    SomeLineContainsSet(kept, seen, line);
    DedupPrefixStep(lines, i);
  }

  /** One more line of input: `Dedup` of a longer prefix, in terms of the shorter. */
  lemma DedupPrefixStep(lines: seq<string>, i: nat)
    requires i < |lines|
    ensures Dedup(lines[..i + 1]) ==
      if Dropped(lines[i], Dedup(lines[..i])) then Dedup(lines[..i])
      else Dedup(lines[..i]) + [lines[i]]
  {
    assert lines[..i + 1][..i] == lines[..i];
  }

  /** The date test of the loop body over the set of seen lines. */
  method DateDuplicateScan(line: string, seen: set<string>) returns (isDuplicate: bool)
    ensures isDuplicate <==>
      DateRuleApplies(line) && exists s :: s in seen && MiddleDot in s && IsSubstring(DurationPart(line), s)
  {
    isDuplicate := false;
    if MiddleDot in line && ('-' in line || IsSubstring("to", line)) {
      var parts := Split(line, MiddleDot);
      if |parts| == 2 {
        var duration := Strip(parts[1]);
        var pending := seen;
        while pending != {}
          invariant pending <= seen
          invariant forall s :: s in seen - pending ==> !(MiddleDot in s && IsSubstring(duration, s))
          decreases pending
        {
          var seenLine :| seenLine in pending;
          if MiddleDot in seenLine && IsSubstring(duration, seenLine) {
            isDuplicate := true;
            break;
          }
          pending := pending - {seenLine};
        }
      }
    }
  }

  /** The recursive search over the kept lines agrees with a search over their set. */
  lemma {:induction false} SomeLineContainsSet(kept: seq<string>, seen: set<string>, line: string)
    requires forall l :: l in seen <==> l in kept
    ensures DateDuplicate(line, kept) <==>
      DateRuleApplies(line) && exists s :: s in seen && MiddleDot in s && IsSubstring(DurationPart(line), s)
  {
    if DateRuleApplies(line) {
      SomeLineContainsExists(kept, DurationPart(line));
    }
  }

  lemma {:induction false} SomeLineContainsExists(kept: seq<string>, part: string)
    ensures SomeLineContains(kept, part) <==> exists s :: s in kept && MiddleDot in s && IsSubstring(part, s)
  {
    if |kept| > 0 {
      SomeLineContainsExists(kept[1..], part);
      assert forall s :: s in kept <==> s == kept[0] || s in kept[1..];
    }
  }

  /** A two-line text of clean lines keeps the second line unless it is dropped
      against the first. */
  lemma TwoLines(a: string, b: string)
    requires IsCleanLine(a) && IsCleanLine(b)
    ensures CleanText(Some(a + "\n" + b)) == if Dropped(b, [a]) then Some(a) else Some(a + "\n" + b)
  {
    assert Join([a, b], '\n') == a + "\n" + b;
    SplitJoin([a, b], '\n');
    assert StripAll([a, b]) == [a, b];
    assert [a, b][..1] == [a];
    assert Dedup([a]) == [a];
  }

  /** The date rule applies to a line `<before> · <duration>` that mentions `-` or
      `to` when a kept line with a middle dot contains the duration. */
  lemma DateRuleMatches(line: string, kept: seq<string>, before: string, duration: string)
    requires line == before + [MiddleDot, ' '] + duration
    requires MiddleDot !in before && MiddleDot !in duration
    requires duration != [] && IsStripped(duration)
    requires '-' in line || IsSubstring("to", line)
    requires SomeLineContains(kept, duration)
    ensures DateDuplicate(line, kept)
  {
    assert line == before + [MiddleDot] + ([' '] + duration);
    SplitAfterPiece(before, MiddleDot, [' '] + duration);
    SplitNoSeparator([' '] + duration, MiddleDot);
    StripLeadingWhitespace(' ', duration);
  }

  /** A period line: a date range, a middle dot and a duration, as the site renders it. */
  function PeriodLine(range: string, duration: string): string {
    range + [' ', MiddleDot, ' '] + duration
  }

  /** The same duration after a second date range that mentions `-` or `to` is
      dropped, whatever the wording of the ranges: for instance
      "Sep 2024 - Nov 2024 · 3 mos" followed by "Sep 2024 to Nov 2024 · 3 mos"
      cleans to the first line alone. */
  lemma SameDurationCollapses(range1: string, range2: string, duration: string)
    requires IsCleanLine(range1) && IsCleanLine(range2) && IsCleanLine(duration)
    requires MiddleDot !in range1 && MiddleDot !in range2 && MiddleDot !in duration
    requires '-' in range2 || IsSubstring("to", range2)
    requires range1 != range2
    ensures CleanText(Some(PeriodLine(range1, duration) + "\n" + PeriodLine(range2, duration)))
         == Some(PeriodLine(range1, duration))
  {
    var l1, l2 := PeriodLine(range1, duration), PeriodLine(range2, duration);
    PeriodLineClean(range1, duration);
    PeriodLineClean(range2, duration);
    PeriodLineDuplicate(range1, range2, duration);
    TwoLines(l1, l2);
  }

  lemma {:induction false} PeriodLineClean(range: string, duration: string)
    requires IsCleanLine(range) && IsCleanLine(duration)
    ensures IsCleanLine(PeriodLine(range, duration))
  {
    var l := PeriodLine(range, duration);
    assert l[0] == range[0] && l[|l| - 1] == duration[|duration| - 1];
  }

  lemma PeriodLineDuplicate(range1: string, range2: string, duration: string)
    requires IsCleanLine(duration)
    requires MiddleDot !in range2 && MiddleDot !in duration
    requires '-' in range2 || IsSubstring("to", range2)
    requires range1 != range2
    ensures DateDuplicate(PeriodLine(range2, duration), [PeriodLine(range1, duration)])
    ensures PeriodLine(range2, duration) != PeriodLine(range1, duration)
  {
    var l1, l2 := PeriodLine(range1, duration), PeriodLine(range2, duration);
    if |range1| == |range2| {
      assert l1[..|range1|] == range1 && l2[..|range2|] == range2;
    }
    assert duration[0..|duration|] == duration;
    SubstringAt(duration, duration, 0);
    ShorterDurationDropped(range1, duration, range2, duration);
  }

  /** The duration test is containment, not equality: after a kept period line
      whose duration is, say, "1 yr 11 mos", a later period line whose duration is
      "1 yr" (or any other piece of it) is dropped as a duplicate. */
  lemma ShorterDurationDropped(range1: string, longer: string, range2: string, duration: string)
    requires IsCleanLine(duration)
    requires MiddleDot !in range2 && MiddleDot !in duration
    requires '-' in range2 || IsSubstring("to", range2)
    requires IsSubstring(duration, longer)
    ensures DateDuplicate(PeriodLine(range2, duration), [PeriodLine(range1, longer)])
  {
    var l2 := PeriodLine(range2, duration);
    PeriodLineMentionsRange(range2, duration);
    PeriodLineHoldsDuration(range1, longer, duration);
    assert l2 == (range2 + [' ']) + [MiddleDot, ' '] + duration;
    assert MiddleDot !in range2 + [' '];
    DateRuleMatches(l2, [PeriodLine(range1, longer)], range2 + [' '], duration);
  }

  /** A period line mentions `-` or `to` when its range does. */
  lemma PeriodLineMentionsRange(range: string, duration: string)
    requires '-' in range || IsSubstring("to", range)
    ensures '-' in PeriodLine(range, duration) || IsSubstring("to", PeriodLine(range, duration))
  {
    assert PeriodLine(range, duration) == range + ([' ', MiddleDot, ' '] + duration);
    if '-' !in range {
      SubstringExtend("to", range, [' ', MiddleDot, ' '] + duration);
    }
  }

  /** A period line has a middle dot and contains every piece of its duration. */
  lemma PeriodLineHoldsDuration(range: string, longer: string, duration: string)
    requires IsSubstring(duration, longer)
    ensures SomeLineContains([PeriodLine(range, longer)], duration)
  {
    var l := PeriodLine(range, longer);
    assert l == (range + [' ', MiddleDot, ' ']) + longer;
    SubstringPrepend(duration, range + [' ', MiddleDot, ' '], longer);
    assert l[|range| + 1] == MiddleDot;
  }
}

=== FILE: company.dfy ===
/**
  `clean_company_name`: removal of a trailing employment-type annotation such as
  " · Full-time" from a company name, as the substitution of the pattern
  `\s*·\s*(Full-time|Part-time|Contract|Internship|Self-employed|Freelance)$`
  by the empty string.
 */
module CompanyName {
  import opened Wrappers
  import opened Text

  /** The six alternatives of the pattern, matched case-sensitively. */
  const EmploymentTypes: seq<string> :=
    ["Full-time", "Part-time", "Contract", "Internship", "Self-employed", "Freelance"]

  /** `w` is one of `words`: membership spelt out by recursion, which unfolds
      one alternative at a time and keeps proofs about the literals cheap;
      `InWordsMember` ties it to `in`. */
  predicate InWords(w: string, words: seq<string>)
    decreases |words|
  {
    |words| > 0 && (w == words[0] || InWords(w, words[1..]))
  }

  lemma {:induction false} InWordsMember(w: string, words: seq<string>)
    ensures InWords(w, words) <==> w in words
    decreases |words|
  {
    if |words| > 0 {
      InWordsMember(w, words[1..]);
      assert words == [words[0]] + words[1..];
    }
  }

  /** A word the pattern can end with: a non-empty word without whitespace at its
      ends, middle dots or line breaks. */
  predicate IsTagShaped(t: string) {
    t != [] && IsStripped(t) && MiddleDot !in t && '\n' !in t
  }

  /** The letters the alternatives are spelt with: ASCII letters and `-`. */
  predicate IsTagLetter(c: char) {
    ('A' <= c <= 'Z') || ('a' <= c <= 'z') || c == '-'
  }

  predicate IsSpeltWithTagLetters(t: string) {
    t != [] && forall i :: 0 <= i < |t| ==> IsTagLetter(t[i])
  }

  /** Every employment type is tag-shaped. */
  lemma {:induction false} EmploymentTypesShape(t: string)
    requires InWords(t, EmploymentTypes)
    ensures IsTagShaped(t)
  {
    assert forall k :: 0 <= k < |EmploymentTypes| ==> IsSpeltWithTagLetters(EmploymentTypes[k]);
    InWordsSpelt(t, EmploymentTypes);
    TagLettersShaped(t);
  }

  lemma {:induction false} InWordsSpelt(t: string, words: seq<string>)
    requires InWords(t, words)
    requires forall k :: 0 <= k < |words| ==> IsSpeltWithTagLetters(words[k])
    ensures IsSpeltWithTagLetters(t)
    decreases |words|
  {
    if t != words[0] {
      InWordsSpelt(t, words[1..]);
    }
  }

  /** A word spelt with letters and `-` is tag-shaped. */
  lemma {:induction false} TagLettersShaped(t: string)
    requires IsSpeltWithTagLetters(t)
    ensures IsTagShaped(t)
  {
    assert IsTagLetter(t[0]) && IsTagLetter(t[|t| - 1]);
  }

  /** What may follow the middle dot up to the end of a match: `\s*` and one
      alternative. */
  predicate IsTagTail(t: string)
    decreases |t|
  {
    InWords(t, EmploymentTypes) || (|t| > 0 && IsWhitespace(t[0]) && IsTagTail(t[1..]))
  }

  /** The pattern matches `s` from position `p` to the end of `s`: a whitespace run,
      a middle dot, then a tag tail. */
  predicate MatchesAt(s: string, p: nat)
    decreases |s| - p
  {
    p < |s| &&
    ((s[p] == MiddleDot && IsTagTail(s[p + 1..])) || (IsWhitespace(s[p]) && MatchesAt(s, p + 1)))
  }

  /** `s` ends with a line break, before which `$` also matches. */
  predicate EndsWithNewline(s: string) {
    |s| > 0 && s[|s| - 1] == '\n'
  }

  /** A match of the pattern, with `$` anchored at the end of `s` or just before a
      final line break, starts at `p`. */
  predicate RegexMatchesAt(s: string, p: nat) {
    MatchesAt(s, p) || (EndsWithNewline(s) && MatchesAt(s[..|s| - 1], p))
  }

  /** `p` is where the search for a match, trying start positions from the left,
      first succeeds. */
  predicate IsLeftmostMatch(s: string, p: nat) {
    RegexMatchesAt(s, p) && forall q: nat :: q < p ==> !RegexMatchesAt(s, q)
  }

  /** A tag tail holds no middle dot, and ends with the last letter of a tag. */
  lemma {:induction false} TagTailShape(t: string)
    requires IsTagTail(t)
    ensures forall k :: 0 <= k < |t| ==> t[k] != MiddleDot
    ensures t != [] && !IsWhitespace(t[|t| - 1]) && t[|t| - 1] != '\n'
    decreases |t|
  {
    if InWords(t, EmploymentTypes) {
      EmploymentTypesShape(t);
    } else {
      TagTailShape(t[1..]);
      assert forall k :: 1 <= k < |t| ==> t[k] == t[1..][k - 1];
    }
  }

  /** The index of the last middle dot, when what follows it is a tag tail. */
  function TagDot(s: string): (r: Option<nat>)
    ensures r.Some? ==> r.value < |s| && s[r.value] == MiddleDot && IsTagTail(s[r.value + 1..])
    ensures forall p :: 0 <= p < |s| && s[p] == MiddleDot && IsTagTail(s[p + 1..]) ==> r == Some(p)
  {
    match LastIndexOf(s, MiddleDot)
    case None => None
    case Some(d) =>
      TagDotUnique(s, d);
      if IsTagTail(s[d + 1..]) then Some(d) else None
  }

  /** Only the last middle dot can be followed by a tag tail. */
  lemma TagDotUnique(s: string, d: nat)
    requires d < |s| && s[d] == MiddleDot && forall k :: d < k < |s| ==> s[k] != MiddleDot
    ensures forall p :: 0 <= p < |s| && s[p] == MiddleDot && IsTagTail(s[p + 1..]) ==> p == d
  {
    forall p | 0 <= p < |s| && s[p] == MiddleDot && IsTagTail(s[p + 1..]) ensures p == d {
      TagTailShape(s[p + 1..]);
      forall k | p < k < |s| ensures s[k] != MiddleDot {
        assert s[k] == s[p + 1..][k - p - 1];
      }
    }
  }

  /** The middle dot a match starting at `p` runs through: only whitespace lies
      between `p` and it, and a tag tail follows it. */
  lemma {:induction false} MatchDot(s: string, p: nat) returns (d: nat)
    requires MatchesAt(s, p)
    ensures p <= d < |s| && s[d] == MiddleDot && IsTagTail(s[d + 1..])
    ensures forall k :: p <= k < d ==> IsWhitespace(s[k])
    decreases |s| - p
  {
    if s[p] == MiddleDot && IsTagTail(s[p + 1..]) {
      d := p;
    } else {
      d := MatchDot(s, p + 1);
    }
  }

  /** Whitespace up to a middle dot followed by a tag tail matches. */
  lemma {:induction false} RunBeforeDotMatches(s: string, p: nat, d: nat)
    requires d < |s| && s[d] == MiddleDot && IsTagTail(s[d + 1..])
    requires p <= d && forall k :: p <= k < d ==> IsWhitespace(s[k])
    ensures MatchesAt(s, p)
    decreases d - p
  {
    if p < d {
      RunBeforeDotMatches(s, p + 1, d);
    }
  }

  /** A match position lies in the whitespace run before `TagDot`, or is that dot. */
  lemma MatchFindsTagDot(s: string, p: nat)
    requires MatchesAt(s, p)
    ensures TagDot(s).Some? && TrailingWhitespaceStart(s[..TagDot(s).value]) <= p <= TagDot(s).value
  {
    var d := MatchDot(s, p);
    assert TagDot(s) == Some(d);
    assert forall k :: p <= k < d ==> IsWhitespace(s[..d][k]);
  }

  /** The trailing whitespace run of a prefix of `s` lies in `s` itself. */
  lemma {:induction false} RunBeforeIndex(s: string, d: nat)
    requires d <= |s|
    ensures forall k :: TrailingWhitespaceStart(s[..d]) <= k < d ==> IsWhitespace(s[k])
  {
    var n := TrailingWhitespaceStart(s[..d]);
    forall k | n <= k < d ensures IsWhitespace(s[k]) {
      assert s[k] == s[..d][n..][k - n];
    }
  }

  /** Where the leftmost match starts, if the pattern matches at all: the
      position the regular-expression search finds first. */
  function MatchStart(s: string): (r: Option<nat>)
    ensures r.None? ==> forall p: nat :: !MatchesAt(s, p)
    ensures r.Some? ==> r.value < |s| && MatchesAt(s, r.value)
    ensures r.Some? ==> forall q: nat :: q < r.value ==> !MatchesAt(s, q)
  {
    match TagDot(s)
    case None =>
      NoTagNoMatch(s);
      None
    case Some(d) =>
      var n := TrailingWhitespaceStart(s[..d]);
      RunBeforeIndex(s, d);
      RunBeforeDotMatches(s, n, d);
      NothingBefore(s, n);
      Some(n)
  }

  /** The substitution on a string without a final line break: the match, if
      any, reaches the end of `s`, so the result is the prefix before the
      leftmost match start. */
  function StripEmploymentType(s: string): (r: string)
    ensures |r| <= |s| && r == s[..|r|]
    ensures |r| == |s| ==> forall p: nat :: !MatchesAt(s, p)
    ensures |r| < |s| ==> MatchesAt(s, |r|) && forall q: nat :: q < |r| ==> !MatchesAt(s, q)
  {
    match MatchStart(s)
    case None => s
    case Some(n) => s[..n]
  }

  lemma NoTagNoMatch(s: string)
    requires TagDot(s).None?
    ensures forall p: nat :: !MatchesAt(s, p)
  {
    forall p: nat | MatchesAt(s, p) ensures TagDot(s).Some? {
      MatchFindsTagDot(s, p);
    }
  }

  lemma NothingBefore(s: string, n: nat)
    requires TagDot(s).Some? && n == TrailingWhitespaceStart(s[..TagDot(s).value])
    ensures forall q: nat :: q < n ==> !MatchesAt(s, q)
  {
    forall q: nat | MatchesAt(s, q) ensures n <= q {
      MatchFindsTagDot(s, q);
    }
  }

  /** The part of `s` before the position where `$` matches a match's end: all
      of `s`, or all but a final line break. */
  function Anchored(s: string): (a: string)
    ensures s == a + (if EndsWithNewline(s) then "\n" else "")
  {
    if EndsWithNewline(s) then s[..|s| - 1] else s
  }

  /** `clean_company_name`: the substitution with `$` anchored at the end or
      before a final line break. Without a match the name is unchanged; with one,
      everything from the leftmost match start up to the anchor is removed. */
  function CleanCompanyName(s: string): (r: string)
    ensures (forall p: nat :: !RegexMatchesAt(s, p)) ==> r == s
    ensures forall p: nat :: IsLeftmostMatch(s, p) ==>
      r == s[..p] + (if EndsWithNewline(s) then "\n" else "")
  {
    var a := Anchored(s);
    RegexMatchesAnchored(s);
    StripAtLeftmost(a);
    assert forall p: nat :: p <= |a| ==> s[..p] == a[..p];
    StripEmploymentType(a) + (if EndsWithNewline(s) then "\n" else "")
  }

  /** A match of the anchored pattern is a match in the part before the anchor. */
  lemma RegexMatchesAnchored(s: string)
    ensures forall p: nat :: RegexMatchesAt(s, p) <==> MatchesAt(Anchored(s), p)
  {
    forall p: nat ensures MatchesAt(s, p) ==> !EndsWithNewline(s) {
      MatchEndsWithTag(s, p);
    }
  }

  /** A match ends with the last letter of an employment type, not a line break. */
  lemma MatchEndsWithTag(s: string, p: nat)
    ensures MatchesAt(s, p) ==> !EndsWithNewline(s)
  {
    if MatchesAt(s, p) {
      MatchFindsTagDot(s, p);
      var d := TagDot(s).value;
      TagTailShape(s[d + 1..]);
      assert s[d + 1..][|s| - d - 2] == s[|s| - 1];
    }
  }

  /** `p` starts a match of the pattern anchored at the very end and no earlier
      position does: `IsLeftmostMatch` for `MatchesAt` in place of
      `RegexMatchesAt`, kept as its own predicate so that its quantifier has a
      trigger of its own. */
  predicate IsFirstMatch(s: string, p: nat) {
    MatchesAt(s, p) && forall q: nat :: q < p ==> !MatchesAt(s, q)
  }

  /** `StripEmploymentType` cuts at the leftmost match. */
  lemma {:induction false} StripAtLeftmost(s: string)
    ensures forall p: nat :: IsFirstMatch(s, p) ==> StripEmploymentType(s) == s[..p]
  {
    var r := StripEmploymentType(s);
    forall p: nat | IsFirstMatch(s, p) ensures r == s[..p] {
      assert |r| < |s|;
      assert p <= |r|;
      assert |r| <= p;
    }
  }

  /** A name annotated with an employment type, as the site renders it. */
  function Tagged(name: string, tag: string): string {
    name + [' ', MiddleDot, ' '] + tag
  }

  /** A stripped name followed by " · " and an employment type cleans to the name,
      even when the name has middle dots of its own: "Acme · Labs · Contract"
      cleans to "Acme · Labs". */
  lemma StripsTag(name: string, tag: string)
    requires name != [] && IsStripped(name) && tag in EmploymentTypes
    ensures CleanCompanyName(Tagged(name, tag)) == name
  {
    var s := Tagged(name, tag);
    InWordsMember(tag, EmploymentTypes);
    TaggedStart(name, tag);
    assert s[..|name|] == name;
    assert StripEmploymentType(s) == name;
    EmploymentTypesShape(tag);
    assert Anchored(s) == s;
  }

  lemma TaggedStart(name: string, tag: string)
    requires name != [] && IsStripped(name) && tag in EmploymentTypes
    ensures MatchStart(Tagged(name, tag)) == Some(|name|)
  {
    var s := Tagged(name, tag);
    var d := |name| + 1;
    TaggedDot(name, tag);
    assert s[..d] == name + [' '];
    SpaceAfterName(name);
  }

  lemma TaggedDot(name: string, tag: string)
    requires tag in EmploymentTypes
    ensures TagDot(Tagged(name, tag)) == Some(|name| + 1)
  {
    var s := Tagged(name, tag);
    var d := |name| + 1;
    assert s[d] == MiddleDot;
    assert s[d + 1..] == [' '] + tag;
    SpaceThenTag(s[d + 1..], tag);
  }

  lemma {:induction false} SpaceThenTag(t: string, tag: string)
    requires t == [' '] + tag && tag in EmploymentTypes
    ensures IsTagTail(t)
  {
    InWordsMember(tag, EmploymentTypes);
    assert t[1..] == tag;
  }

  lemma {:induction false} SpaceAfterName(name: string)
    requires name != [] && IsStripped(name)
    ensures TrailingWhitespaceStart(name + [' ']) == |name|
  {
    assert (name + [' '])[..|name|] == name;
  }

  /** One call removes one annotation: a name carrying two employment types keeps
      the first, so cleaning is not idempotent. */
  lemma StripsOneTagOnly(name: string, first: string, second: string)
    requires name != [] && IsStripped(name)
    requires first in EmploymentTypes && second in EmploymentTypes
    ensures CleanCompanyName(Tagged(Tagged(name, first), second)) == Tagged(name, first)
  {
    var inner := Tagged(name, first);
    InWordsMember(first, EmploymentTypes);
    EmploymentTypesShape(first);
    assert inner[0] == name[0] && inner[|inner| - 1] == first[|first| - 1];
    StripsTag(inner, second);
  }

  /** A name whose text after its last middle dot is not `\s*` and an employment
      type, and which does not end with a line break, is left unchanged; this
      covers the tags in another letter case, such as "full-time". */
  lemma {:induction false} KeepsUnknownTag(s: string, d: nat)
    requires d < |s| && s[d] == MiddleDot && forall k :: d < k < |s| ==> s[k] != MiddleDot
    requires !IsTagTail(s[d + 1..]) && !EndsWithNewline(s)
    ensures CleanCompanyName(s) == s
  {
    TagDotUnique(s, d);
    NoTagNoMatch(s);
    RegexMatchesAnchored(s);
  }
}

=== FILE: filename.dfy ===
/** `sanitize_filename`: deletion of the characters a file name may not carry. */
module Filename {
  import opened Text

  /** The nine characters the pattern `[<>:"/\\|?*]` matches. */
  const Forbidden: set<char> := {'<', '>', ':', '"', '/', '\\', '|', '?', '*'}

  predicate IsClean(name: string) {
    forall i :: 0 <= i < |name| ==> name[i] !in Forbidden
  }

  /** The input with every forbidden character deleted: what is left is clean,
      keeps every other character with its multiplicity, and keeps their order. */
  function SanitizeFilename(name: string): (r: string)
    ensures IsClean(r)
    ensures forall c :: multiset(r)[c] == if c in Forbidden then 0 else multiset(name)[c]
    ensures IsSubsequence(r, name)
  {
    if |name| == 0 then ""
    else
      var rest := SanitizeFilename(name[1..]);
      assert name == [name[0]] + name[1..];
      if name[0] in Forbidden then rest
      else
        assert ([name[0]] + rest)[1..] == rest;
        [name[0]] + rest
  }

  /** A name is left unchanged exactly when it has no forbidden character. */
  lemma {:induction false} SanitizeFixpoint(name: string)
    ensures SanitizeFilename(name) == name <==> IsClean(name)
  {
    if IsClean(name) && |name| > 0 {
      SanitizeFixpoint(name[1..]);
      assert IsClean(name[1..]) by {
        forall i | 0 <= i < |name[1..]| ensures name[1..][i] !in Forbidden {
          assert name[1..][i] == name[i + 1];
        }
      }
      assert name == [name[0]] + name[1..];
    }
  }

  /** Sanitising twice is sanitising once. */
  lemma SanitizeIdempotent(name: string)
    ensures SanitizeFilename(SanitizeFilename(name)) == SanitizeFilename(name)
  {
    SanitizeFixpoint(SanitizeFilename(name));
  }
}

=== FILE: records.dfy ===
/**
  The record `scrape_linkedin_profile` builds from the fields the profile page
  yields: the profile fields, the cleaned company names, the first location,
  the constant flags and one record per experience.
 */
module Records {
  import opened Wrappers
  import opened Text
  import CleanText
  import opened CompanyName

  /** One experience entry as the page yields it; any field may be missing. */
  datatype RawExperience = RawExperience(
    positionTitle: Option<string>,
    institutionName: Option<string>,
    location: Option<string>,
    fromDate: Option<string>,
    toDate: Option<string>,
    description: Option<string>)

  /** The profile as the page yields it. */
  datatype RawProfile = RawProfile(
    name: Option<string>,
    picture: Option<string>,
    about: Option<string>,
    jobTitle: Option<string>,
    experiences: seq<RawExperience>)

  /** One entry of the record's `experiences` list. */
  datatype ExperienceRecord = ExperienceRecord(
    position: Option<string>,
    company: string,
    location: Option<string>,
    duration: string,
    description: Option<string>)

  /** The record of one profile, in the order of its keys. `createdAt` is the
      timestamp the caller supplies. */
  datatype ProfileRecord = ProfileRecord(
    name: Option<string>,
    linkedinUrl: string,
    pictureUrl: Option<string>,
    bio: Option<string>,
    role: Option<string>,
    companies: seq<string>,
    currentLocation: Option<string>,
    hasLinkedin: bool,
    scraped: bool,
    manuallyVerified: bool,
    createdAt: string,
    experiences: seq<ExperienceRecord>)

  /** How an f-string renders an optional string: a missing one as "None". */
  function Render(o: Option<string>): string {
    match o
    case None => "None"
    case Some(v) => v
  }

  /** The `duration` of an experience: "<from> - Present" while the end date is
      missing or empty, "<from> to <to>" otherwise. */
  function Duration(fromDate: Option<string>, toDate: Option<string>): (r: string)
    ensures |Render(fromDate)| <= |r| && r[..|Render(fromDate)|] == Render(fromDate)
    ensures r == Render(fromDate) + " - Present" <==> !Truthy(toDate)
    ensures Truthy(toDate) ==>
      |r| == |Render(fromDate)| + 4 + |toDate.value| && r[|Render(fromDate)| + 4..] == toDate.value
    ensures Truthy(toDate) ==> r[|Render(fromDate)|..|Render(fromDate)| + 4] == " to "
  {
    var from := Render(fromDate);
    if !Truthy(toDate) then
      var r := from + " - Present";
      assert r[..|from|] == from;
      r
    else
      var r := from + " to " + toDate.value;
      assert r[..|from|] == from && r[|from| + 4..] == toDate.value && r[|from|..|from| + 4] == " to ";
      assert r[|from| + 1] == 't' != (from + " - Present")[|from| + 1];
      r
  }

  /** The cleaned description of an experience, or None when it has none. */
  function Description(d: Option<string>): Option<string> {
    if Truthy(d) then CleanText.CleanText(d) else None
  }

  /** The guard on the description is redundant: `clean_text` already maps a
      missing or empty text to None. */
  lemma {:induction false} DescriptionIsCleanText(d: Option<string>)
    ensures Description(d) == CleanText.CleanText(d)
  {
  }

  /** The record of one experience; None when it has no company name, where
      `clean_company_name` fails on None. */
  function ExperienceOf(e: RawExperience): (r: Option<ExperienceRecord>)
    ensures r.None? <==> e.institutionName.None?
    ensures r.Some? ==> r.value.company == CleanCompanyName(e.institutionName.value)
  {
    match e.institutionName
    case None => None
    case Some(company) =>
      Some(ExperienceRecord(
        e.positionTitle,
        CleanCompanyName(company),
        e.location,
        Duration(e.fromDate, e.toDate),
        Description(e.description)))
  }

  /** Every experience has a company name. */
  predicate AllNamed(exps: seq<RawExperience>) {
    forall k :: 0 <= k < |exps| ==> exps[k].institutionName.Some?
  }

  /** The cleaned company name of one experience; None when it has none. */
  function CompanyOf(e: RawExperience): (r: Option<string>)
    ensures r.None? <==> e.institutionName.None?
    ensures r.Some? ==> r.value == CleanCompanyName(e.institutionName.value)
  {
    match e.institutionName
    case None => None
    case Some(company) => Some(CleanCompanyName(company))
  }

  /** A list comprehension over the experiences whose element expression may
      raise: None when it raises for some experience, otherwise the list of the
      values in order. */
  function Collect<T>(exps: seq<RawExperience>, f: RawExperience -> Option<T>): (r: Option<seq<T>>)
    ensures r.Some? <==> forall k :: 0 <= k < |exps| ==> f(exps[k]).Some?
    ensures r.Some? ==> (|r.value| == |exps| &&
      forall k :: 0 <= k < |exps| ==> Some(r.value[k]) == f(exps[k]))
  {
    if |exps| == 0 then Some([])
    else
      assert forall k :: 1 <= k < |exps| ==> exps[k] == exps[1..][k - 1];
      match (f(exps[0]), Collect(exps[1..], f))
      case (Some(x), Some(rest)) => Some([x] + rest)
      case (None, _) => None
      case (_, None) => None
  }

  /** The `companies` list: one cleaned name per experience, in order; None as
      soon as one experience has no company name. */
  function Companies(exps: seq<RawExperience>): (r: Option<seq<string>>)
    ensures r.Some? <==> AllNamed(exps)
    ensures r.Some? ==> (|r.value| == |exps| &&
      forall k :: 0 <= k < |exps| ==> r.value[k] == CleanCompanyName(exps[k].institutionName.value))
  {
    Collect(exps, CompanyOf)
  }

  /** The `experiences` list: one record per experience, in order; None as soon
      as one experience has no company name. */
  function Experiences(exps: seq<RawExperience>): (r: Option<seq<ExperienceRecord>>)
    ensures r.Some? <==> AllNamed(exps)
    ensures r.Some? ==> (|r.value| == |exps| &&
      forall k :: 0 <= k < |exps| ==> Some(r.value[k]) == ExperienceOf(exps[k]))
  {
    Collect(exps, ExperienceOf)
  }

  /** One step of the location loop: the location is taken while none is held
      yet and the experience has a non-empty one. */
  function LocationStep(current: Option<string>, location: Option<string>): Option<string> {
    if !Truthy(current) && Truthy(location) then location else current
  }

  /** The loop over the experiences, as written, from a given current location. */
  function FoldLocation(current: Option<string>, exps: seq<RawExperience>): Option<string>
    decreases |exps|
  {
    if |exps| == 0 then current
    else FoldLocation(LocationStep(current, exps[0].location), exps[1..])
  }

  /** The first experience with a non-empty location is at index `k`. */
  predicate IsFirstLocated(exps: seq<RawExperience>, k: nat) {
    k < |exps| && Truthy(exps[k].location) &&
    forall j :: 0 <= j < k ==> !Truthy(exps[j].location)
  }

  /** Reference: the location of the first experience that has a non-empty one. */
  function FirstLocation(exps: seq<RawExperience>): (r: Option<string>)
    ensures r.None? <==> forall k :: 0 <= k < |exps| ==> !Truthy(exps[k].location)
    ensures forall k: nat :: IsFirstLocated(exps, k) ==> r == exps[k].location
  {
    if |exps| == 0 then None
    else if Truthy(exps[0].location) then exps[0].location
    else
      var r := FirstLocation(exps[1..]);
      assert forall k: nat :: IsFirstLocated(exps, k) ==> k > 0 && IsFirstLocated(exps[1..], k - 1);
      assert forall k :: 1 <= k < |exps| ==> exps[k] == exps[1..][k - 1];
      r
  }

  /** The loop keeps a location once it holds one, and otherwise ends with the
      first non-empty location. */
  lemma {:induction false} FoldLocationFirst(current: Option<string>, exps: seq<RawExperience>)
    requires current.None? || Truthy(current)
    ensures FoldLocation(current, exps) == if Truthy(current) then current else FirstLocation(exps)
    decreases |exps|
  {
    if |exps| > 0 {
      FoldLocationFirst(LocationStep(current, exps[0].location), exps[1..]);
    }
  }

  /** The record's `current_location` is the first non-empty location. */
  lemma CurrentLocationIsFirst(exps: seq<RawExperience>)
    ensures FoldLocation(None, exps) == FirstLocation(exps)
  {
    FoldLocationFirst(None, exps);
  }

  /** The record of a fetched profile; None when an experience has no company
      name, where the error is caught and the scrape returns None. */
  function BuildRecord(raw: RawProfile, url: string, createdAt: string): (r: Option<ProfileRecord>)
    ensures r.Some? <==> AllNamed(raw.experiences)
    ensures r.Some? ==>
      && r.value.name == raw.name
      && r.value.linkedinUrl == url
      && r.value.pictureUrl == raw.picture
      && r.value.bio == CleanText.CleanText(raw.about)
      && r.value.role == raw.jobTitle
      && r.value.hasLinkedin && r.value.scraped && !r.value.manuallyVerified
      && r.value.createdAt == createdAt
    ensures r.Some? ==> r.value.currentLocation == FirstLocation(raw.experiences)
    ensures r.Some? ==> |r.value.companies| == |r.value.experiences| == |raw.experiences|
    ensures r.Some? ==> forall k :: 0 <= k < |raw.experiences| ==>
      r.value.companies[k] == r.value.experiences[k].company ==
        CleanCompanyName(raw.experiences[k].institutionName.value)
  {
    CurrentLocationIsFirst(raw.experiences);
    match (Companies(raw.experiences), Experiences(raw.experiences))
    case (Some(companies), Some(experiences)) =>
      Some(ProfileRecord(
        raw.name,
        url,
        raw.picture,
        CleanText.CleanText(raw.about),
        raw.jobTitle,
        companies,
        FoldLocation(None, raw.experiences),
        true,
        true,
        false,
        createdAt,
        experiences))
    case _ => None
  }

  /** Each experience record carries the experience's own position, location,
      duration and cleaned description. */
  lemma BuildRecordExperiences(raw: RawProfile, url: string, createdAt: string, k: nat)
    requires BuildRecord(raw, url, createdAt).Some? && k < |raw.experiences|
    ensures var x := BuildRecord(raw, url, createdAt).value.experiences[k];
            var e := raw.experiences[k];
            && x.position == e.positionTitle
            && x.location == e.location
            && x.duration == Duration(e.fromDate, e.toDate)
            && x.description == CleanText.CleanText(e.description)
  {
    assert Some(BuildRecord(raw, url, createdAt).value.experiences[k]) == ExperienceOf(raw.experiences[k]);
  }

  /** The whole scrape of one profile: None when fetching the page failed (the
      login, the navigation or the page parsing raised) or when building the
      record failed. */
  function ScrapeProfile(url: string, fetched: Option<RawProfile>, createdAt: string): (r: Option<ProfileRecord>)
    ensures r.Some? <==> fetched.Some? && AllNamed(fetched.value.experiences)
    ensures r.Some? ==> r.value.linkedinUrl == url && r.value.scraped
  {
    match fetched
    case None => None
    case Some(raw) => BuildRecord(raw, url, createdAt)
  }

  /** The record locates the profile at the first non-empty location even when
      a later experience has one too: locations None, "Paris", "Berlin" give
      "Paris". */
  lemma FirstLocationWins(a: RawExperience, b: RawExperience, c: RawExperience)
    requires a.location.None? && b.location == Some("Paris") && c.location == Some("Berlin")
    ensures FoldLocation(None, [a, b, c]) == Some("Paris")
  {
    CurrentLocationIsFirst([a, b, c]);
    assert IsFirstLocated([a, b, c], 1);
  }
}

=== FILE: text.dfy ===
/**
  String helpers shared by the normalisers: Python's notion of whitespace,
  `str.strip`, `str.split(sep)`, `sep.join`, substring containment (`in`) and
  truthiness of an optional string.
 */
module Text {
  import opened Wrappers

  /** The middle dot U+00B7 that separates a label from its annotation. */
  const MiddleDot: char := '\U{00B7}'

  /** The code points for which Python's `str.isspace()` holds; `str.strip()` and
      the regular-expression class `\s` use the same set. */
  predicate IsWhitespace(c: char) {
    || ('\t' <= c <= '\r')
    || ('\U{001C}' <= c <= '\U{001F}')
    || c == ' '
    || c == '\U{0085}'
    || c == '\U{00A0}'
    || c == '\U{1680}'
    || ('\U{2000}' <= c <= '\U{200A}')
    || c == '\U{2028}'
    || c == '\U{2029}'
    || c == '\U{202F}'
    || c == '\U{205F}'
    || c == '\U{3000}'
  }

  predicate AllWhitespace(s: string) {
    forall i :: 0 <= i < |s| ==> IsWhitespace(s[i])
  }

  /** No whitespace at either end: what `str.strip()` returns. */
  predicate IsStripped(s: string) {
    s == [] || (!IsWhitespace(s[0]) && !IsWhitespace(s[|s| - 1]))
  }

  /** Python truthiness of an optional string: neither None nor empty. */
  predicate Truthy(o: Option<string>) {
    o.Some? && o.value != ""
  }

  /** The length of the leading whitespace run. */
  function LeadingWhitespace(s: string): (n: nat)
    ensures n <= |s| && AllWhitespace(s[..n])
    ensures n == |s| || !IsWhitespace(s[n])
  {
    if |s| > 0 && IsWhitespace(s[0]) then
      var m := LeadingWhitespace(s[1..]);
      assert forall i :: 1 <= i < 1 + m ==> s[i] == s[1..][..m][i - 1];
      1 + m
    else
      0
  }

  /** The index where the trailing whitespace run starts. */
  function TrailingWhitespaceStart(s: string): (n: nat)
    ensures n <= |s| && AllWhitespace(s[n..])
    ensures n == 0 || !IsWhitespace(s[n - 1])
  {
    if |s| > 0 && IsWhitespace(s[|s| - 1]) then
      var m := TrailingWhitespaceStart(s[..|s| - 1]);
      assert forall i :: m <= i < |s| - 1 ==> s[i] == s[..|s| - 1][m..][i - m];
      m
    else
      |s|
  }

  /** `str.strip()`: the one infix of `s` that has only whitespace around it
      and no whitespace at either of its own ends. */
  function Strip(s: string): (r: string)
    ensures IsStripped(r)
    ensures exists i, j :: 0 <= i <= j <= |s| && r == s[i..j]
                           && AllWhitespace(s[..i]) && AllWhitespace(s[j..])
    ensures r == [] <==> AllWhitespace(s)
    ensures IsStripped(s) ==> r == s
  {
    var i := LeadingWhitespace(s);
    var j := TrailingWhitespaceStart(s);
    if i == |s| then
      assert s[..i] == s;
      assert AllWhitespace(s[i..]);
      []
    else
      assert forall k :: j <= k < |s| ==> IsWhitespace(s[k]) by {
        forall k | j <= k < |s| ensures IsWhitespace(s[k]) { assert s[k] == s[j..][k - j]; }
      }
      assert s[i..j][0] == s[i] && s[i..j][j - i - 1] == s[j - 1];
      s[i..j]
  }

  /** Stripping one leading whitespace character off an otherwise stripped string. */
  lemma {:induction false} StripLeadingWhitespace(c: char, x: string)
    requires IsWhitespace(c) && x != [] && IsStripped(x)
    ensures Strip([c] + x) == x
  {
    var s := [c] + x;
    assert s[1..] == x;
    assert LeadingWhitespace(s) == 1;
    assert s[1..|s|] == x;
  }

  /** Every character of a stripped string is a character of the original. */
  lemma {:induction false} StripChars(s: string, c: char)
    requires c in Strip(s)
    ensures c in s
  {
    var r := Strip(s);
    var i, j :| 0 <= i <= j <= |s| && r == s[i..j]
                && AllWhitespace(s[..i]) && AllWhitespace(s[j..]);
    var k :| 0 <= k < |r| && r[k] == c;
    assert s[i + k] == c;
  }

  /** `sep.join(lines)`. */
  function Join(lines: seq<string>, sep: char): string {
    if |lines| == 0 then ""
    else if |lines| == 1 then lines[0]
    else lines[0] + [sep] + Join(lines[1..], sep)
  }

  /** `s.split(sep)` for a one-character separator: the pieces between separators,
      empty pieces included. Joining them back gives `s`. */
  function Split(s: string, sep: char): (r: seq<string>)
    ensures |r| >= 1
    ensures forall k :: 0 <= k < |r| ==> sep !in r[k]
    ensures Join(r, sep) == s
  {
    if |s| == 0 then [""]
    else
      var rest := Split(s[1..], sep);
      if s[0] == sep then
        var r := [""] + rest;
        assert r[1..] == rest;
        assert s == [sep] + s[1..];
        r
      else
        var r := [[s[0]] + rest[0]] + rest[1..];
        assert s == [s[0]] + s[1..];
        if |rest| == 1 then r
        else
          assert r[1..] == rest[1..];
          r
  }

  /** A piece without separators splits to itself. */
  lemma {:induction false} SplitNoSeparator(s: string, sep: char)
    requires sep !in s
    ensures Split(s, sep) == [s]
  {
    if |s| > 0 {
      SplitNoSeparator(s[1..], sep);
      assert s == [s[0]] + s[1..];
    }
  }

  lemma {:induction false} SplitAfterPiece(a: string, sep: char, tail: string)
    requires sep !in a
    ensures Split(a + [sep] + tail, sep) == [a] + Split(tail, sep)
  {
    var s := a + [sep] + tail;
    if |a| == 0 {
      assert s[1..] == tail;
    } else {
      assert s[1..] == a[1..] + [sep] + tail;
      SplitAfterPiece(a[1..], sep, tail);
      assert [a[0]] + a[1..] == a;
    }
  }

  /** Round trip in the other direction: splitting a join of separator-free pieces
      gives the pieces back. */
  lemma {:induction false} SplitJoin(lines: seq<string>, sep: char)
    requires |lines| >= 1
    requires forall k :: 0 <= k < |lines| ==> sep !in lines[k]
    ensures Split(Join(lines, sep), sep) == lines
  {
    if |lines| == 1 {
      SplitNoSeparator(lines[0], sep);
    } else {
      SplitJoin(lines[1..], sep);
      SplitAfterPiece(lines[0], sep, Join(lines[1..], sep));
      assert lines == [lines[0]] + lines[1..];
    }
  }

  /** Every character of a join is the separator or a character of some piece. */
  lemma {:induction false} JoinChars(lines: seq<string>, sep: char, c: char)
    requires c in Join(lines, sep)
    ensures c == sep || exists k :: 0 <= k < |lines| && c in lines[k]
  {
    if |lines| > 1 {
      if c !in lines[0] && c != sep {
        JoinChars(lines[1..], sep, c);
        var k :| 0 <= k < |lines[1..]| && c in lines[1..][k];
        assert c in lines[k + 1];
      }
    }
  }

  /** A character of any piece is a character of the join of the pieces. */
  lemma {:induction false} JoinContainsPiece(lines: seq<string>, sep: char, k: nat, c: char)
    requires k < |lines| && c in lines[k]
    ensures c in Join(lines, sep)
  {
    if |lines| > 1 && k > 0 {
      JoinContainsPiece(lines[1..], sep, k - 1, c);
    }
  }

  /** A join of lines whose first is non-empty is non-empty. */
  lemma {:induction false} JoinNonEmpty(lines: seq<string>, sep: char)
    requires |lines| >= 1 && lines[0] != ""
    ensures Join(lines, sep) != ""
  {
  }

  /** Python's `needle in hay` for strings. */
  function IsSubstring(needle: string, hay: string): bool
    decreases |hay|
  {
    if |needle| <= |hay| && hay[..|needle|] == needle then true
    else if |hay| == 0 then false
    else IsSubstring(needle, hay[1..])
  }

  /** A needle found at position `i` makes `IsSubstring` true. */
  lemma {:induction false} SubstringAt(needle: string, hay: string, i: nat)
    requires i + |needle| <= |hay| && hay[i..i + |needle|] == needle
    ensures IsSubstring(needle, hay)
  {
    if i > 0 && !(|needle| <= |hay| && hay[..|needle|] == needle) {
      assert hay[1..][i - 1..i - 1 + |needle|] == needle;
      SubstringAt(needle, hay[1..], i - 1);
    }
  }

  /** A substring of a string is a substring of any extension of it. */
  lemma {:induction false} SubstringExtend(needle: string, hay: string, tail: string)
    requires IsSubstring(needle, hay)
    ensures IsSubstring(needle, hay + tail)
  {
    if |needle| <= |hay| && hay[..|needle|] == needle {
      assert (hay + tail)[..|needle|] == needle;
    } else {
      assert (hay + tail)[1..] == hay[1..] + tail;
      SubstringExtend(needle, hay[1..], tail);
    }
  }

  /** A substring of a string is a substring of any string ending with it. */
  lemma {:induction false} SubstringPrepend(needle: string, head: string, hay: string)
    requires IsSubstring(needle, hay)
    ensures IsSubstring(needle, head + hay)
    decreases |head|
  {
    if |head| == 0 {
      assert head + hay == hay;
    } else {
      assert (head + hay)[1..] == head[1..] + hay;
      SubstringPrepend(needle, head[1..], hay);
    }
  }

  /** `s.rfind(c)` as an option: the index of the last occurrence of `c`. */
  function LastIndexOf(s: string, c: char): (r: Option<nat>)
    ensures r.Some? ==> r.value < |s| && s[r.value] == c
    ensures r.Some? ==> forall k :: r.value < k < |s| ==> s[k] != c
    ensures r.None? ==> forall k :: 0 <= k < |s| ==> s[k] != c
  {
    if |s| == 0 then None
    else if s[|s| - 1] == c then Some(|s| - 1)
    else
      var r := LastIndexOf(s[..|s| - 1], c);
      assert s == s[..|s| - 1] + [s[|s| - 1]];
      r
  }

  /** The index of the first occurrence of `x` in `xs`. */
  function FirstIndex<T(==)>(xs: seq<T>, x: T): (r: nat)
    requires x in xs
    ensures r < |xs| && xs[r] == x && x !in xs[..r]
  {
    if xs[0] == x then 0 else 1 + FirstIndex(xs[1..], x)
  }

  /** The first occurrence of an element of a prefix lies in that prefix. */
  lemma {:induction false} FirstIndexPrefix<T>(xs: seq<T>, n: nat, x: T)
    requires n <= |xs| && x in xs[..n]
    ensures FirstIndex(xs, x) == FirstIndex(xs[..n], x)
  {
    if xs[0] != x {
      assert xs[..n][1..] == xs[1..][..n - 1];
      FirstIndexPrefix(xs[1..], n - 1, x);
    }
  }

  /** `a` can be obtained from `b` by deleting elements. */
  predicate IsSubsequence<T(==)>(a: seq<T>, b: seq<T>) {
    if |a| == 0 then true
    else if |b| == 0 then false
    else if a[0] == b[0] then IsSubsequence(a[1..], b[1..])
    else IsSubsequence(a, b[1..])
  }
}

=== FILE: wrappers.dfy ===
/** Python's `None` as an explicit case: the conventional Some/None datatype. */
module Wrappers {

  datatype Option<+T> = None | Some(value: T)
}
